=== FILE: README.md ===
# faq_search — a Dafny model of the FAQ search core

faq_search is a multi-tenant FAQ service. Each user (identified by an email
address) stores question/answer pairs in an Elasticsearch index. An ingest
pipeline embeds each question on write. A query is answered by a KNN search
over the user's own entries. A per-user API key guards the HTTP search
endpoint.

This project models the decision and shaping logic between the libraries.
It covers:

- the HTTP `search` handler's dispatch;
- the Elasticsearch adapter: what each operation sends and what it does with
  the reply;
- the UI's session-list bookkeeping;
- API-key derivation.

Elasticsearch, the embedding service and SHA-256 are oracles: function-valued
parameters whose replies the model takes as given.

Files:

- `json.dfy` (`PyJson`): Python JSON values, Python exceptions, and the
  Python operators the code applies to them. These are `d[k]`, `l[i]`
  (negative indices included), `k in v` for dicts, strings and lists, and
  the slice `s[0:n]`.
- `api_key.dfy` (`ApiKey`): UTF-8 encoding, `hexdigest()` and its inverse,
  `get_api_key`, and the import-time read of `API_KEY_PASSWORD`.
- `es.dfy` (`Es`): `create_index`, `add_qa`, `del_qa`, `get_qas`,
  `_get_embedding` and `search_knn`, over a `Backend` of oracles. Each
  operation returns the external calls it issued, in order, plus its result
  or the exception it raises.
- `fastapi_app.dfy` (`SearchApi`): the `GET /search/{email}` handler.
- `streamlit_app.dfy` (`FaqUi`): `load_qas`, `del_qa`, the one-time session
  initialisation and the add path.

Behaviour of the code that the model keeps as written:

- `search_knn` has no fallback from the simulate route to the embedding API.
  When the simulate reply lacks `text_embedding`, `_get_embedding` returns
  None. `search_knn` then subscripts it and fails with a TypeError before any
  KNN request.
- The embedding-API vector is never used, yet a failing embedding-API call,
  or a reply without a first embedding, fails the whole search.
- An empty query string is searched; only an omitted query is rejected.
- The owner passed to `search_knn` is only checked against None; an empty
  owner is searched.
- No embedding-consistency check exists: the comparison at es.py:225 is
  commented out.
- `search_knn` simulates the literal pipeline `"embedding"`, not the
  configured `DEFAULT_PIPELINE_ID` that `add_qa` uses.
- The result loop formats a debug line for every kept hit, so a hit whose
  `_source` has no sliceable `text_field` fails the whole search.

## Model

| member | source | states |
|---|---|---|
| ApiKey.EncodeChar | api_key.py:10 | each character becomes the shortest UTF-8 form of section 3 of RFC 3629: one byte below U+0080, two below U+0800, three below U+10000, four above; a lead byte that announces the length, then continuation bytes, and the sequence decodes back to the character |
| ApiKey.Utf8 | api_key.py:10 | `str.encode()` produces between one and four bytes per character |
| ApiKey.Utf8Injective | api_key.py:10 | different strings encode to different byte strings |
| ApiKey.Utf8Append | api_key.py:10 | encoding `email + password` is encoding `email` followed by encoding `password` |
| ApiKey.HexDigest | api_key.py:10 | `hexdigest()` gives exactly two characters per byte, each in `0-9a-f` |
| ApiKey.HexRoundTrip | api_key.py:10 | decoding the hex rendering gives back the digest bytes |
| ApiKey.HexInjective | api_key.py:10 | two digests render to the same hex string if and only if they are equal |
| ApiKey.KeyFor | api_key.py:9-10 | the key is 64 lowercase hex characters that decode to SHA-256 of the UTF-8 bytes of email then password |
| ApiKey.KeyOfConcatenation | api_key.py:10 | the key depends on email and password only through their concatenation |
| ApiKey.SplitPointIrrelevant | api_key.py:10 | ("a", "bc") and ("ab", "c") give the same key |
| ApiKey.KeysEqualIffDigestsEqual | api_key.py:10 | two inputs share a key exactly when SHA-256 maps their encodings to the same digest |
| ApiKey.KeyClashNeedsCollision | api_key.py:10 | two different `email + password` strings share a key only through a SHA-256 collision on two different byte strings |
| ApiKey.Import | api_key.py:6 | importing reads `API_KEY_PASSWORD` from the environment and raises KeyError when it is unset |
| ApiKey.GetApiKey | api_key.py:9-10 | an omitted password falls back to the password read at import; a given one is used as is |
| ApiKey.DefaultKeyFromImport | api_key.py:6-9 | after a successful import, the default-password key is the key under the environment's value at import time |
| Es.CreateIndexIfMissing | es.py:34-51 | asks whether the index exists first; issues a create with the FAQ mapping only when the index is missing, and no other call; afterwards the index exists |
| Es.CreateIndexTwice | es.py:34-51 | two consecutive calls issue exactly one create if the index was missing and none otherwise; the second call only checks existence |
| Es.QaDocument | es.py:101-105 | the submitted document has exactly the owner, question and answer fields, holding the arguments |
| Es.AddQa | es.py:101-113 | one index request goes through the given pipeline; on success the returned doc has exactly `login_email`, `text_field`, `answer` and the store's `_id`, and no embedding; the store's exception is the result, unchanged |
| Es.DelQa | es.py:120-122 | exactly one delete request for the id; the store's outcome, including an error, is the result |
| Es.GetQas | es.py:152-158 | exactly one search: a `match` on `login_email` equal to the argument, source projected to `text_field` and `answer`, size 10000 |
| Es.ReadSimulateReply | es.py:183-190 | for a reply of the shape the store promises, yields the first doc's `_source` when `doc`, `_source` and `text_embedding` are all present, and None otherwise |
| Es.GetEmbedding | es.py:177-190 | sends one simulate call for the one-document batch holding the text; a simulate exception propagates, otherwise the reply is read as above |
| Es.GetEmbeddingPresence | es.py:183-190 | with a well-shaped reply, `_get_embedding` returns a `_source` if and only if all three keys are present, and that `_source` carries `text_embedding` |
| Es.NumCandidates | es.py:241 | the candidate pool never exceeds 10000; it is 50 × `max_results` whenever `max_results` ≤ 200, and is never below a `max_results` in 0..10000 |
| Es.KnnFor | es.py:229-245 | the KNN request has exactly one `term` filter on `login_email` equal to the owner, `k = max_results`, the capped candidate pool, the given query vector, and the question/answer projection |
| Es.AttachScores | es.py:257-262 | one entry per hit, in hit order; each entry is the hit's `_source` plus `score` equal to the hit's `_score`, other fields unchanged |
| PyJson.PrefixSlice | es.py:257 | Python's `s[0:stop]`: the result is a prefix of `s`, of length `stop` clamped to the length of `s`, and a negative `stop` drops that many items from the end |
| Es.LogLineError | es.py:260 | formatting the debug line raises KeyError exactly when the question is missing, and TypeError when it is present but cannot be sliced |
| Es.ScoreAndLog | es.py:257-262 | succeeds exactly when every hit's question can be logged, and then equals the scored hits in order; otherwise fails with the error of the first hit that cannot be logged |
| Es.ShapeResults | es.py:257-262 | succeeds exactly when every hit in `hits[0:max_results]` can be logged; then has exactly as many entries as that slice (at most `max_results` when non-negative), entry i being hit i's `_source` with its score |
| Es.ReadApiReply | es.py:222 | `["embeddings"][0]` yields the first vector of a non-empty list, IndexError for an empty list, KeyError when `embeddings` is missing, TypeError for a reply that is not a dict |
| Es.SearchKnn | es.py:205-262 | the simulate call comes first; success needs a given owner and means exactly three calls (simulate, embedding API, one KNN search with the owner filter, `k` and the capped pool), with at most `max_results` results; a missing owner always fails |
| Es.NoFallbackWithoutEmbedding | es.py:183-218 | when the simulate reply lacks the embedding, the search fails with TypeError after the simulate call alone: no embedding-API call, no KNN request |
| Es.SearchKnnRequestAndResults | es.py:218-262 | once both routes answer and the owner is given, the calls are simulate, embedding API, then the KNN request built from the simulated vector; the outcome is the result loop over the store's hits, so on success the results are the first `max_results` hits, each scored |
| Es.ApiFailureFailsSearch | es.py:218-238 | when the simulate route succeeds but the embedding-API call fails or its reply has no first embedding, the search fails after the two embedding calls and makes no KNN request |
| Es.EmbeddingApiIrrelevant | es.py:218-238 | the embedding-API vector never influences the search: backends differing only in that service give identical calls and results when both replies are readable |
| Es.MissingOwnerAsserts | es.py:218-232 | a None owner fails the assertion after both embedding calls and before any KNN request |
| SearchApi.ExpectedKey | fastapi_app.py:19 | the expected key is the key derived for the request's email with the import-time password |
| SearchApi.Route | fastapi_app.py:19-30 | dispatch precedence, each outcome if and only if its condition: reject on a bad key, else list on `show_list == "yes"`, else error on a missing query, else search |
| SearchApi.Sources | fastapi_app.py:24 | the list results are each hit's `_source`, one per hit, in store order |
| SearchApi.Search | fastapi_app.py:11-38 | no adapter operation runs exactly when the key is bad or no query and no list was asked for; a bad key gives exactly `{"error": "Invalid API key"}`; a missing query gives exactly `{"error": "No query provided"}`; listing invokes only `get_qas(email)`; searching invokes only `search_knn(query, email, max_results or 10)` |
| SearchApi.SearchEchoesArguments | fastapi_app.py:30-37 | a search response holds exactly `results`, `query`, `email` and `max_results`, echoing the arguments, and an exception from the search escapes |
| SearchApi.SearchReplyEchoes | fastapi_app.py:30-37 | the search branch calls `search_knn` once, passes on its calls and its exception, and on success answers exactly `results`, `query`, `email` and `max_results` |
| SearchApi.DerivedKeyAccepted | fastapi_app.py:19 | a request carrying the key derived for its own email passes the gate |
| SearchApi.InvalidKeyIgnoresRest | fastapi_app.py:19-20 | with a wrong key the reply does not depend on `query`, `show_list` or `max_results` |
| SearchApi.ListingWinsOverQuery | fastapi_app.py:22-25 | with `show_list == "yes"` the reply is the same whether or not a query or count is given |
| SearchApi.OnlyExactYesLists | fastapi_app.py:22 | any `show_list` other than the exact string `"yes"` behaves as if it were omitted |
| SearchApi.ListResponseIsSources | fastapi_app.py:22-25 | the list response is exactly `{"results": …}` with one entry per hit, each that hit's `_source`, in store order |
| SearchApi.EmptyQueryIsSearched | fastapi_app.py:27-30 | an empty query string is searched, not rejected |
| SearchApi.DefaultResultCount | fastapi_app.py:17-37 | an omitted `max_results` searches with 10 and echoes 10 |
| FaqUi.EntriesOf | streamlit_app.py:22-26 | one entry per hit, in hit order; entry i is hit i's `_source` with `_id` set to hit i's id, other fields unchanged |
| FaqUi.LoadQas | streamlit_app.py:20-28 | `load_qas` makes the `get_qas` call for the email and returns one id-tagged entry per hit; the store's exception is the result, unchanged |
| FaqUi.InitQaList | streamlit_app.py:49-50 | an existing list is left alone with no call; a missing one is loaded from the store, and the initialisation fails exactly when the load does, with the load's exception; a failed load leaves the session as it was; every entry keeps an `_id` |
| FaqUi.InitLoadsOnce | streamlit_app.py:49-50 | after a successful initialisation, re-running it issues no call and changes nothing |
| FaqUi.KeepOthers | streamlit_app.py:35 | the filter fails with KeyError exactly when some entry lacks `_id`; otherwise the kept entries are exactly the entries whose `_id` differs from the id |
| FaqUi.KeepOthersAppend | streamlit_app.py:35 | filtering a concatenation is concatenating the filtered parts, so relative order is preserved |
| FaqUi.KeepOthersSingle | streamlit_app.py:35 | a single entry is kept exactly when its `_id` differs |
| FaqUi.DelQa | streamlit_app.py:31-37 | exactly one store delete for the id; on success no remaining entry has that `_id` and every other entry stays; on an initialised session whose entries all carry `_id` a successful store delete never raises; on an exception the list is unchanged |
| FaqUi.AddQa | streamlit_app.py:74-76 | on an initialised session a successful `add_qa` never raises and its returned doc is appended at the end, earlier entries unchanged; a store exception is the step's exception and leaves the list unchanged; an uninitialised list raises; every entry keeps an `_id` |
| FaqUi.DeleteAfterAdd | streamlit_app.py:31-76 | deleting the id of a just-added entry removes it and leaves exactly the earlier entries the filter keeps |

## Left out

- ApiKey.Utf8: a Python string holding a lone surrogate (as `os.environ` produces for undecodable bytes) cannot be represented, because Dafny characters are Unicode scalar values; for such a string `str.encode()` raises UnicodeEncodeError, so every key derivation with such a password fails, and the model does not have that error path.
- emb_app.py: the embedding service itself. SentenceTransformer inference, HTTP and floating point are out of scope; its reply is the `embeddingApi` oracle.
- `create_pipeline` (es.py:55-86): the ingest pipeline runs inside the store, so neither its registration nor its execution is modelled. The store's `_id` assignment and the write-time embedding are oracle replies.
- `delete_index`, `_get_all` and the `__main__` blocks: administrative, debugging and demo code.
- `_get_embedding_from_api` (es.py:193-202): the HTTP POST and JSON decoding are the `embeddingApi` oracle. The model reads its reply with `["embeddings"][0]` and otherwise ignores it.
- Elasticsearch internals: KNN ranking, descending score order, tenant-filter enforcement and storage and deletion semantics are promises of the store. They are not proved.
- Search replies are typed as hits with `_id`, `_score` and `_source`. The code's subscripts `["hits"]["hits"]`, `["_source"]`, `["_id"]` and `["_score"]` are taken to succeed, because the store promises that shape. The simulate reply stays generic JSON because the code checks its shape.
- Es.CreateIndexIfMissing: assumes the existence check and the create both succeed. Transport errors from `indices.exists` and `indices.create` are not modelled.
- Es.LogLineError: a question that is a dict raises TypeError before Python 3.12 and KeyError from 3.12 on; the model reports TypeError.
- Vector components and `_score` values are opaque `Float` tokens. No arithmetic is done on them.
- Timing and logging (`time.time`, `log.*`), including the read of `sem_search["took"]`, which only feeds a log line.
- Environment loading other than `API_KEY_PASSWORD`, and construction of the module-level Elasticsearch client. The index name and the pipeline id are parameters.
- SHA-256 (FIPS 180-4, section 6.2) is an uninterpreted function from bytes to 32-byte digests.
- FastAPI routing, status codes and JSON key order. Streamlit widgets, layout, the search panel, list rendering, the `print`/log lines in `del_qa`, and the OAuth login.
- Concurrency between requests or sessions.
- Python's in-place update of each hit's `_source` in `search_knn` and `load_qas`. The reply is discarded afterwards, so the mutation is not observable and is modelled as a fresh map.

=== FILE: api_key.dfy ===
/** The credential gate: the per-user API key is the lowercase hexadecimal
    SHA-256 digest of the UTF-8 encoding of `email + password`.

    SHA-256 (FIPS 180-4, section 6.2) stays uninterpreted: it is a
    parameter `sha` from byte strings to 32-byte digests. The string
    concatenation, the UTF-8 encoding done by `str.encode()` and the
    `hexdigest()` rendering are modelled concretely. */
module ApiKey {
  import opened PyJson

  type byte = x: int | 0 <= x < 256

  /** A SHA-256 digest: exactly 32 bytes. */
  type Digest = s: seq<byte> | |s| == 32 witness seq(32, i => 0)

  /** An uninterpreted SHA-256. */
  type Sha256 = seq<byte> -> Digest

  // ---------------------------------------------------------------------
  // UTF-8 (what `str.encode()` does with its default codec)
  // ---------------------------------------------------------------------

  /** The number of bytes of a UTF-8 sequence, read off its lead byte. */
  function SequenceLength(lead: byte): nat
  {
    if lead < 0x80 then 1 else if lead < 0xE0 then 2 else if lead < 0xF0 then 3 else 4
  }

  /** A continuation byte: `10xxxxxx`. */
  predicate IsContinuation(b: byte)
  {
    0x80 <= b < 0xC0
  }

  /** The code point a one- to four-byte UTF-8 sequence carries: the payload
      bits of the lead byte followed by six bits per continuation byte. */
  function DecodeSequence(r: seq<byte>): int
    requires 1 <= |r| <= 4
  {
    var lead: int := r[0];
    if |r| == 1 then lead
    else if |r| == 2 then (lead - 0xC0) * 64 + Payload(r[1])
    else if |r| == 3 then (lead - 0xE0) * 4096 + Payload(r[1]) * 64 + Payload(r[2])
    else (lead - 0xF0) * 262144 + Payload(r[1]) * 4096 + Payload(r[2]) * 64 + Payload(r[3])
  }

  /** The six payload bits of a continuation byte. */
  function Payload(b: byte): int
  {
    b as int - 0x80
  }

  /** A well-formed UTF-8 sequence for the code point `n`. */
  predicate EncodesTo(r: seq<byte>, n: int)
  {
    && 1 <= |r| <= 4
    && !IsContinuation(r[0]) && SequenceLength(r[0]) == |r|
    && (forall i :: 1 <= i < |r| ==> IsContinuation(r[i]))
    && DecodeSequence(r) == n
  }

  function EncodeTwo(n: int): (r: seq<byte>)
    requires 0x80 <= n < 0x800
    ensures |r| == 2 && EncodesTo(r, n)
  {
    [0xC0 + n / 64, 0x80 + n % 64]
  }

  function EncodeThree(n: int): (r: seq<byte>)
    requires 0x800 <= n < 0x1_0000
    ensures |r| == 3 && EncodesTo(r, n)
  {
    var r := [0xE0 + n / 4096, 0x80 + (n / 64) % 64, 0x80 + n % 64];
    assert n == (n / 4096) * 4096 + ((n / 64) % 64) * 64 + n % 64;
    r
  }

  function EncodeFour(n: int): (r: seq<byte>)
    requires 0x1_0000 <= n < 0x11_0000
    ensures |r| == 4 && EncodesTo(r, n)
  {
    var r := [0xF0 + n / 262144, 0x80 + (n / 4096) % 64, 0x80 + (n / 64) % 64, 0x80 + n % 64];
    assert n == (n / 262144) * 262144 + ((n / 4096) % 64) * 4096 + ((n / 64) % 64) * 64 + n % 64;
    r
  }

  /** The UTF-8 encoding of one Unicode scalar value: a lead byte announcing
      the length, then continuation bytes, decoding back to the character. */
  function EncodeChar(c: char): (r: seq<byte>)
    ensures (c as int < 0x80) <==> |r| == 1
    ensures EncodesTo(r, c as int)
    ensures |r| == if c as int < 0x80 then 1 else if c as int < 0x800 then 2
                   else if c as int < 0x1_0000 then 3 else 4
  {
    var n := c as int;
    if n < 0x80 then [n]
    else if n < 0x800 then EncodeTwo(n)
    else if n < 0x1_0000 then EncodeThree(n)
    else EncodeFour(n)
  }

  function Utf8(s: string): (r: seq<byte>)
    ensures |s| <= |r| <= 4 * |s|
  {
    if |s| == 0 then [] else EncodeChar(s[0]) + Utf8(s[1..])
  }

  /** Encoding distributes over concatenation, so encoding `email +
      password` is encoding `email` followed by encoding `password`. */
  lemma {:induction false} Utf8Append(a: string, b: string)
    ensures Utf8(a + b) == Utf8(a) + Utf8(b)
  {
    if |a| == 0 {
      assert a + b == b;
    } else {
      assert (a + b)[0] == a[0];
      assert (a + b)[1..] == a[1..] + b;
      var e := EncodeChar(a[0]);
      assert Utf8(a + b) == e + Utf8(a[1..] + b);
      assert Utf8(a) == e + Utf8(a[1..]);
      Utf8Append(a[1..], b);
    }
  }

  /** Different strings encode to different bytes: the lead byte fixes the
      length of each character's sequence, and the sequence fixes the
      character. */
  lemma {:induction false} Utf8Injective(a: string, b: string)
    requires Utf8(a) == Utf8(b)
    ensures a == b
  {
    if |a| == 0 || |b| == 0 {
      assert |Utf8(a)| == 0 || |Utf8(b)| == 0;
    } else {
      var ea, eb := EncodeChar(a[0]), EncodeChar(b[0]);
      assert Utf8(a) == ea + Utf8(a[1..]);
      assert Utf8(b) == eb + Utf8(b[1..]);
      assert ea[0] == Utf8(a)[0] == eb[0];
      assert |ea| == |eb|;
      assert ea == Utf8(a)[..|ea|] == eb;
      assert a[0] as int == DecodeSequence(ea) == b[0] as int;
      assert Utf8(a[1..]) == Utf8(a)[|ea|..] == Utf8(b[1..]);
      Utf8Injective(a[1..], b[1..]);
      assert a == [a[0]] + a[1..] && b == [b[0]] + b[1..];
    }
  }

  // ---------------------------------------------------------------------
  // hexdigest()
  // ---------------------------------------------------------------------

  const HexAlphabet: string := "0123456789abcdef"

  predicate IsLowerHex(c: char)
  {
    '0' <= c <= '9' || 'a' <= c <= 'f'
  }

  function HexChar(n: int): (c: char)
    requires 0 <= n < 16
    ensures IsLowerHex(c)
  {
    HexAlphabet[n]
  }

  /** The value of one lowercase hexadecimal digit. */
  function HexValue(c: char): (n: int)
    requires IsLowerHex(c)
    ensures 0 <= n < 16
    ensures HexChar(n) == c
  {
    if c <= '9' then c as int - '0' as int else c as int - 'a' as int + 10
  }

  lemma HexValueOfChar(n: int)
    requires 0 <= n < 16
    ensures HexValue(HexChar(n)) == n
  {
  }

  /** `bytes.hex()`: two lowercase digits per byte, high nibble first. */
  function HexDigest(d: seq<byte>): (r: string)
    ensures |r| == 2 * |d|
    ensures forall i :: 0 <= i < |r| ==> IsLowerHex(r[i])
  {
    if |d| == 0 then []
    else [HexChar(d[0] / 16), HexChar(d[0] % 16)] + HexDigest(d[1..])
  }

  /** Reads a lowercase hexadecimal rendering back into bytes: the partner
      of `HexDigest`. */
  function HexDecode(s: string): (r: seq<byte>)
    requires |s| % 2 == 0
    requires forall i :: 0 <= i < |s| ==> IsLowerHex(s[i])
    ensures 2 * |r| == |s|
  {
    if |s| == 0 then []
    else [HexValue(s[0]) * 16 + HexValue(s[1])] + HexDecode(s[2..])
  }

  /** Decoding the rendering gives the digest back. */
  lemma {:induction false} HexRoundTrip(d: seq<byte>)
    ensures HexDecode(HexDigest(d)) == d
  {
    if |d| != 0 {
      var h := HexDigest(d);
      assert h[2..] == HexDigest(d[1..]);
      HexValueOfChar(d[0] / 16);
      HexValueOfChar(d[0] % 16);
      HexRoundTrip(d[1..]);
    }
  }

  /** Hex rendering is injective: distinct digests give distinct keys. */
  lemma HexInjective(a: seq<byte>, b: seq<byte>)
    ensures HexDigest(a) == HexDigest(b) <==> a == b
  {
    if HexDigest(a) == HexDigest(b) {
      HexRoundTrip(a);
      HexRoundTrip(b);
    }
  }

  // ---------------------------------------------------------------------
  // get_api_key
  // ---------------------------------------------------------------------

  /** The key for `email` under `password`. */
  function KeyFor(sha: Sha256, email: string, password: string): (r: string)
    ensures |r| == 64
    ensures forall i :: 0 <= i < |r| ==> IsLowerHex(r[i])
    ensures HexDecode(r) == sha(Utf8(email) + Utf8(password))
  {
    Utf8Append(email, password);
    HexRoundTrip(sha(Utf8(email + password)));
    HexDigest(sha(Utf8(email + password)))
  }

  /** The key depends on `email` and `password` only through their
      concatenation. */
  lemma KeyOfConcatenation(sha: Sha256, e1: string, p1: string, e2: string, p2: string)
    requires e1 + p1 == e2 + p2
    ensures KeyFor(sha, e1, p1) == KeyFor(sha, e2, p2)
  {
  }

  /** An instance of `KeyOfConcatenation`: where the email ends and the
      password begins makes no difference. */
  lemma SplitPointIrrelevant(sha: Sha256)
    ensures KeyFor(sha, "a", "bc") == KeyFor(sha, "ab", "c")
  {
    KeyOfConcatenation(sha, "a", "bc", "ab", "c");
  }

  /** Two inputs get the same key exactly when SHA-256 gives them the same
      digest. */
  lemma KeysEqualIffDigestsEqual(sha: Sha256, e1: string, p1: string, e2: string, p2: string)
    ensures KeyFor(sha, e1, p1) == KeyFor(sha, e2, p2)
        <==> sha(Utf8(e1 + p1)) == sha(Utf8(e2 + p2))
  {
    HexInjective(sha(Utf8(e1 + p1)), sha(Utf8(e2 + p2)));
  }

  /** Two different `email + password` strings can share a key only when
      SHA-256 maps two different byte strings to the same digest. */
  lemma KeyClashNeedsCollision(sha: Sha256, e1: string, p1: string, e2: string, p2: string)
    requires e1 + p1 != e2 + p2
    ensures KeyFor(sha, e1, p1) == KeyFor(sha, e2, p2) ==>
              && Utf8(e1 + p1) != Utf8(e2 + p2)
              && sha(Utf8(e1 + p1)) == sha(Utf8(e2 + p2))
  {
    KeysEqualIffDigestsEqual(sha, e1, p1, e2, p2);
    if Utf8(e1 + p1) == Utf8(e2 + p2) {
      Utf8Injective(e1 + p1, e2 + p2);
    }
  }

  /** The `api_key` module after import: it has read `API_KEY_PASSWORD`
      from the environment exactly once. */
  datatype KeyModule = KeyModule(apiKeyPassword: string)

  /** Importing the module: `os.environ["API_KEY_PASSWORD"]` raises KeyError
      when the variable is unset. */
  function Import(env: map<string, string>): (r: Result<KeyModule>)
    ensures r.Ok? <==> "API_KEY_PASSWORD" in env
    ensures r.Ok? ==> r.value.apiKeyPassword == env["API_KEY_PASSWORD"]
    ensures r.Err? ==> r.error == KeyError(Str("API_KEY_PASSWORD"))
  {
    if "API_KEY_PASSWORD" in env then Ok(KeyModule(env["API_KEY_PASSWORD"]))
    else Err(KeyError(Str("API_KEY_PASSWORD")))
  }

  /** `get_api_key(email)` or `get_api_key(email, password)`: an omitted
      password falls back to the password read at import. */
  function GetApiKey(m: KeyModule, sha: Sha256, email: string, password: Option<string>): (r: string)
    ensures password.Some? ==> r == KeyFor(sha, email, password.value)
    ensures password.None? ==> r == KeyFor(sha, email, m.apiKeyPassword)
  {
    KeyFor(sha, email, password.GetOr(m.apiKeyPassword))
  }

  /** Once imported, the default key is fixed by the environment seen at
      import time; the same email always yields the same key. */
  lemma DefaultKeyFromImport(env: map<string, string>, sha: Sha256, email: string)
    requires "API_KEY_PASSWORD" in env
    ensures Import(env).Ok?
    ensures GetApiKey(Import(env).value, sha, email, None)
         == KeyFor(sha, email, env["API_KEY_PASSWORD"])
  {
  }
}

=== FILE: es.dfy ===
/** The Elasticsearch adapter of the FAQ service (es.py): what each
    operation sends to the store and what it makes of the reply.

    The store and the embedding service are oracles: a `Backend` holds one
    function per external call, giving the reply (or the exception the
    client library raises) for a request. KNN ranking, tenant-filter
    enforcement, the ingest pipeline and storage are the store's business
    and are not modelled. Every operation returns the external calls it
    issued, in order, next to its own result. */
module Es {
  import opened PyJson

  // ---------------------------------------------------------------------
  // Requests, replies and the backend
  // ---------------------------------------------------------------------

  /** Field types of the index mapping. */
  datatype FieldType =
    | Keyword
    | Text
    | DenseVector(dims: nat, indexed: bool, similarity: string)

  /** A full-text `match` query on one field. */
  datatype MatchQuery = MatchQuery(field: string, value: string)

  /** A `term` filter clause on one field. */
  datatype TermFilter = TermFilter(field: string, value: string)

  /** `es.search(index=…, query={"match": …}, source=…, size=…)` */
  datatype SearchRequest = SearchRequest(index: string, query: MatchQuery, source: seq<string>, size: int)

  /** `es.knn_search(index=…, knn={…}, filter=…, source=…)` */
  datatype KnnRequest = KnnRequest(
    index: string,
    field: string,
    queryVector: Json,
    k: int,
    numCandidates: int,
    filter: seq<TermFilter>,
    source: seq<string>)

  /** `es.index(index=…, pipeline=…, document=…)` */
  datatype IndexRequest = IndexRequest(index: string, pipeline: string, document: Doc)

  /** `es.delete(index=…, id=…)` */
  datatype DeleteRequest = DeleteRequest(index: string, id: string)

  /** One hit of a search reply: `_id`, `_score` (opaque) and `_source`. */
  datatype Hit = Hit(id: string, score: Json, source: Doc)

  /** The external calls the adapter issues. */
  datatype Call =
    | IndexExists(name: string)
    | CreateIndex(name: string, mappings: map<string, FieldType>)
    | IndexDoc(indexRequest: IndexRequest)
    | DeleteDoc(deleteRequest: DeleteRequest)
    | Search(searchRequest: SearchRequest)
    | Simulate(pipeline: string, docs: Json)
    | EmbeddingApi(sentences: seq<string>)
    | KnnSearch(knnRequest: KnnRequest)

  /** The replies of the external world. `simulate` answers the ingest
      simulate API with the raw reply body; `embeddingApi` answers the
      embedding service with the decoded JSON body; `index` answers with
      the `_id` the store assigned. */
  datatype Backend = Backend(
    simulate: (string, Json) -> Result<Json>,
    embeddingApi: seq<string> -> Result<Json>,
    knnSearch: KnnRequest -> Result<seq<Hit>>,
    search: SearchRequest -> Result<seq<Hit>>,
    index: IndexRequest -> Result<string>,
    delete: DeleteRequest -> Result<()>)

  /** A result together with the external calls made to obtain it. */
  datatype Traced<+T> = Traced(calls: seq<Call>, result: Result<T>)

  // ---------------------------------------------------------------------
  // create_index
  // ---------------------------------------------------------------------

  const EmbeddingDims: nat := 768

  /** The mapping of the FAQ index: keyword owner, text question, a 768-wide
      indexed dense vector compared by cosine similarity, text answer. */
  const FaqMappings: map<string, FieldType> := map[
    "login_email" := Keyword,
    "text_field" := Text,
    "text_embedding" := DenseVector(EmbeddingDims, true, "cosine"),
    "answer" := Text
  ]

  function CountCreates(calls: seq<Call>): (n: nat)
    ensures n <= |calls|
  {
    if |calls| == 0 then 0
    else (if calls[0].CreateIndex? then 1 else 0) + CountCreates(calls[1..])
  }

  lemma {:induction false} CountCreatesAppend(a: seq<Call>, b: seq<Call>)
    ensures CountCreates(a + b) == CountCreates(a) + CountCreates(b)
  {
    if |a| == 0 {
      assert a + b == b;
    } else {
      assert (a + b)[0] == a[0];
      assert (a + b)[1..] == a[1..] + b;
      CountCreatesAppend(a[1..], b);
    }
  }

  /** `create_index(name)` against a store whose existing indices are
      `existing`: asks whether `name` exists and creates it, with the FAQ
      mapping, only when it does not. */
  function CreateIndexIfMissing(existing: set<string>, name: string): (r: (seq<Call>, set<string>))
    ensures r.1 == existing + {name}
    ensures |r.0| >= 1 && r.0[0] == IndexExists(name)
    ensures CountCreates(r.0) == (if name in existing then 0 else 1)
    ensures |r.0| == 1 + CountCreates(r.0)
    ensures forall i :: 0 <= i < |r.0| && r.0[i].CreateIndex? ==>
              r.0[i] == CreateIndex(name, FaqMappings)
  {
    if name !in existing then
      ([IndexExists(name), CreateIndex(name, FaqMappings)], existing + {name})
    else
      ([IndexExists(name)], existing)
  }

  /** Calling `create_index` twice in a row creates the index at most once,
      and exactly once when it was missing. */
  lemma CreateIndexTwice(existing: set<string>, name: string)
    ensures var (c1, s1) := CreateIndexIfMissing(existing, name);
            var (c2, s2) := CreateIndexIfMissing(s1, name);
            && s2 == s1
            && CountCreates(c1 + c2) == (if name in existing then 0 else 1)
            && c2 == [IndexExists(name)]
  {
    var (c1, s1) := CreateIndexIfMissing(existing, name);
    var (c2, s2) := CreateIndexIfMissing(s1, name);
    CountCreatesAppend(c1, c2);
  }

  // ---------------------------------------------------------------------
  // add_qa / del_qa
  // ---------------------------------------------------------------------

  /** The document `add_qa` submits: owner, question and answer, nothing
      else. The embedding is the ingest pipeline's job. */
  function QaDocument(email: string, question: string, answer: string): (d: Doc)
    ensures d.Keys == {"login_email", "text_field", "answer"}
    ensures d["login_email"] == Str(email)
    ensures d["text_field"] == Str(question) && d["answer"] == Str(answer)
  {
    map["login_email" := Str(email), "text_field" := Str(question), "answer" := Str(answer)]
  }

  /** `add_qa(login_email, q, a, pipeline_id, index_name)`: indexes the
      document through the pipeline and returns it with the `_id` the
      store assigned. */
  function AddQa(b: Backend, email: string, question: string, answer: string,
                 pipeline: string, index: string): (r: Traced<Doc>)
    ensures r.calls == [IndexDoc(IndexRequest(index, pipeline, QaDocument(email, question, answer)))]
    ensures r.result.Ok? <==> b.index(IndexRequest(index, pipeline, QaDocument(email, question, answer))).Ok?
    ensures b.index(IndexRequest(index, pipeline, QaDocument(email, question, answer))).Err? ==>
              r.result == Err(b.index(IndexRequest(index, pipeline, QaDocument(email, question, answer))).error)
    ensures r.result.Ok? ==>
              && r.result.value.Keys == {"login_email", "text_field", "answer", "_id"}
              && r.result.value["login_email"] == Str(email)
              && r.result.value["text_field"] == Str(question)
              && r.result.value["answer"] == Str(answer)
              && r.result.value["_id"]
                 == Str(b.index(IndexRequest(index, pipeline, QaDocument(email, question, answer))).value)
  {
    var doc := QaDocument(email, question, answer);
    var req := IndexRequest(index, pipeline, doc);
    match b.index(req)
    case Ok(id) => Traced([IndexDoc(req)], Ok(doc["_id" := Str(id)]))
    case Err(e) => Traced([IndexDoc(req)], Err(e))
  }

  /** `del_qa(doc_id, index_name)`: one delete request; a failure of the
      store (a missing id among them) propagates. */
  function DelQa(b: Backend, id: string, index: string): (r: Traced<()>)
    ensures r.calls == [DeleteDoc(DeleteRequest(index, id))]
    ensures r.result == b.delete(DeleteRequest(index, id))
  {
    Traced([DeleteDoc(DeleteRequest(index, id))], b.delete(DeleteRequest(index, id)))
  }

  // ---------------------------------------------------------------------
  // get_qas
  // ---------------------------------------------------------------------

  const ListSize: int := 10000

  /** The only source fields callers ever receive back. */
  const ProjectedFields: seq<string> := ["text_field", "answer"]

  /** `get_qas(login_email, index_name)`: one search for the owner's
      documents, projected to question and answer, capped at 10000 hits. */
  function GetQas(b: Backend, email: string, index: string): (r: Traced<seq<Hit>>)
    ensures |r.calls| == 1 && r.calls[0].Search?
    ensures r.calls[0].searchRequest.query == MatchQuery("login_email", email)
    ensures r.calls[0].searchRequest.source == ["text_field", "answer"]
    ensures r.calls[0].searchRequest.size == 10000
    ensures r.calls[0].searchRequest.index == index
    ensures r.result == b.search(r.calls[0].searchRequest)
  {
    var req := SearchRequest(index, MatchQuery("login_email", email), ProjectedFields, ListSize);
    Traced([Search(req)], b.search(req))
  }

  // ---------------------------------------------------------------------
  // _get_embedding (the simulate route)
  // ---------------------------------------------------------------------

  /** The one-document batch `_get_embedding` simulates. */
  function SimulateDocs(text: string): Json
  {
    List([Dict(map["_source" := Dict(map["text_field" := Str(text)])])])
  }

  /** A simulate reply of the shape the store promises: `docs` is a
      non-empty list whose first entry is an object, whose `doc`, when
      present, is an object whose `_source`, when present, is an object. */
  predicate WellShapedSimulateReply(reply: Json)
  {
    && reply.Dict? && "docs" in reply.fields
    && reply.fields["docs"].List? && |reply.fields["docs"].items| > 0
    && var d0 := reply.fields["docs"].items[0];
       && d0.Dict?
       && ("doc" in d0.fields ==>
             && d0.fields["doc"].Dict?
             && ("_source" in d0.fields["doc"].fields ==> d0.fields["doc"].fields["_source"].Dict?))
  }

  /** The `_source` of the first simulated document, when the reply carries
      an embedding there. */
  predicate HasEmbedding(reply: Json)
    requires WellShapedSimulateReply(reply)
  {
    var d0 := reply.fields["docs"].items[0];
    && "doc" in d0.fields
    && "_source" in d0.fields["doc"].fields
    && "text_embedding" in d0.fields["doc"].fields["_source"].fields
  }

  function EmbeddedSource(reply: Json): Json
    requires WellShapedSimulateReply(reply) && HasEmbedding(reply)
  {
    reply.fields["docs"].items[0].fields["doc"].fields["_source"]
  }

  /** What `_get_embedding` does with a simulate reply: checks, in order and
      short-circuiting, that `doc`, `_source` and `text_embedding` are
      present, returning the `_source` or None. */
  function ReadSimulateReply(reply: Json): (r: Result<Option<Json>>)
    ensures WellShapedSimulateReply(reply) ==>
              if HasEmbedding(reply) then r == Ok(Some(EmbeddedSource(reply))) else r == Ok(None)
  {
    match Get(reply, "docs")
    case Err(e) => Err(e)
    case Ok(docs) =>
      match At(docs, 0)
      case Err(e) => Err(e)
      case Ok(d0) =>
        match In("doc", d0)
        case Err(e) => Err(e)
        case Ok(false) => Ok(None)
        case Ok(true) =>
          match Get(d0, "doc")
          case Err(e) => Err(e)
          case Ok(doc) =>
            match In("_source", doc)
            case Err(e) => Err(e)
            case Ok(false) => Ok(None)
            case Ok(true) =>
              match Get(doc, "_source")
              case Err(e) => Err(e)
              case Ok(src) =>
                match In("text_embedding", src)
                case Err(e) => Err(e)
                case Ok(false) => Ok(None)
                case Ok(true) => Ok(Some(src))
  }

  /** `_get_embedding(text, pipeline_id)`: one simulate call, then the
      shape check of the reply. */
  function GetEmbedding(b: Backend, text: string, pipeline: string): (r: Traced<Option<Json>>)
    ensures r.calls == [Simulate(pipeline, SimulateDocs(text))]
    ensures b.simulate(pipeline, SimulateDocs(text)).Err? ==> r.result == Err(b.simulate(pipeline, SimulateDocs(text)).error)
    ensures b.simulate(pipeline, SimulateDocs(text)).Ok? ==> r.result == ReadSimulateReply(b.simulate(pipeline, SimulateDocs(text)).value)
  {
    var docs := SimulateDocs(text);
    match b.simulate(pipeline, docs)
    case Err(e) => Traced([Simulate(pipeline, docs)], Err(e))
    case Ok(reply) => Traced([Simulate(pipeline, docs)], ReadSimulateReply(reply))
  }

  /** With a well-shaped reply, `_get_embedding` yields the `_source`
      exactly when `doc`, `_source` and `text_embedding` are all present,
      and None otherwise. */
  lemma GetEmbeddingPresence(b: Backend, text: string, pipeline: string)
    requires b.simulate(pipeline, SimulateDocs(text)).Ok?
    requires WellShapedSimulateReply(b.simulate(pipeline, SimulateDocs(text)).value)
    ensures var reply := b.simulate(pipeline, SimulateDocs(text)).value;
            var r := GetEmbedding(b, text, pipeline).result;
            && r.Ok?
            && (r.value.Some? <==> HasEmbedding(reply))
            && (r.value.Some? ==> r.value.value == EmbeddedSource(reply)
                                  && "text_embedding" in r.value.value.fields)
  {
  }

  // ---------------------------------------------------------------------
  // search_knn
  // ---------------------------------------------------------------------

  /** The pipeline `search_knn` simulates: a literal, not the configured
      default pipeline id. */
  const SearchPipeline: string := "embedding"

  const CandidatesPerResult: int := 50
  const MaxCandidates: int := 10000

  /** The candidate pool: fifty candidates per requested result, capped at
      ten thousand. */
  function NumCandidates(maxResults: int): (n: int)
    ensures n <= MaxCandidates
    ensures maxResults <= 200 ==> n == CandidatesPerResult * maxResults
    ensures maxResults >= 200 ==> n == MaxCandidates
    ensures 0 <= maxResults <= MaxCandidates ==> n >= maxResults
  {
    if maxResults * CandidatesPerResult < MaxCandidates then maxResults * CandidatesPerResult
    else MaxCandidates
  }

  /** The tenant filter: exactly one `term` clause on the owner field. */
  function OwnerFilter(email: string): seq<TermFilter>
  {
    [TermFilter("login_email", email)]
  }

  function KnnFor(index: string, vector: Json, maxResults: int, email: string): (q: KnnRequest)
    ensures q.filter == [TermFilter("login_email", email)]
    ensures q.numCandidates == NumCandidates(maxResults) && q.k == maxResults
    ensures q.queryVector == vector && q.index == index
    ensures q.field == "text_embedding" && q.source == ["text_field", "answer"]
  {
    KnnRequest(index, "text_embedding", vector, maxResults, NumCandidates(maxResults),
               OwnerFilter(email), ProjectedFields)
  }

  /** A hit's `_source` with `score` set to the hit's `_score`. */
  function Scored(h: Hit): Doc
  {
    h.source["score" := h.score]
  }

  /** The loop over the hits: each `_source` gets its `score`, in hit order. */
  function AttachScores(hits: seq<Hit>): (r: seq<Doc>)
    ensures |r| == |hits|
    ensures forall i :: 0 <= i < |hits| ==>
              r[i].Keys == hits[i].source.Keys + {"score"}
              && r[i]["score"] == hits[i].score
              && forall f :: f in hits[i].source && f != "score" ==> r[i][f] == hits[i].source[f]
    ensures forall i :: 0 <= i < |hits| ==> r[i] == Scored(hits[i])
  {
    if |hits| == 0 then [] else [Scored(hits[0])] + AttachScores(hits[1..])
  }

  /** Whether the debug line the loop formats for each kept hit can be
      built: it takes the first 80 characters of the question, so the
      question must be present and sliceable (a string or a list). */
  predicate Loggable(d: Doc)
  {
    "text_field" in d && (d["text_field"].Str? || d["text_field"].List?)
  }

  /** The exception raised while formatting the debug line: KeyError for a
      missing question, TypeError for one that cannot be sliced. */
  function LogLineError(d: Doc): (e: PyError)
    requires !Loggable(d)
    ensures "text_field" !in d <==> e == KeyError(Str("text_field"))
    ensures "text_field" in d ==> e == TypeError
  {
    if "text_field" !in d then KeyError(Str("text_field")) else TypeError
  }

  /** The scoring loop, including its debug line: hit by hit, set the score,
      keep the entry and format the line; the first hit whose line cannot be
      formatted aborts the whole loop. */
  function ScoreAndLog(hits: seq<Hit>): (r: Result<seq<Doc>>)
    ensures r.Ok? <==> forall i :: 0 <= i < |hits| ==> Loggable(hits[i].source)
    ensures r.Ok? ==> r.value == AttachScores(hits)
    ensures r.Err? ==>
              exists i :: 0 <= i < |hits| && !Loggable(hits[i].source)
                          && (forall j :: 0 <= j < i ==> Loggable(hits[j].source))
                          && r.error == LogLineError(hits[i].source)
  {
    if |hits| == 0 then Ok([])
    else
      var d := Scored(hits[0]);
      assert Loggable(d) <==> Loggable(hits[0].source);
      if !Loggable(d) then Err(LogLineError(d))
      else
        match ScoreAndLog(hits[1..])
        case Err(e) =>
          assert forall j :: 1 <= j < |hits| ==> hits[j] == hits[1..][j - 1];
          Err(e)
        case Ok(rest) =>
          assert forall j :: 1 <= j < |hits| ==> hits[j] == hits[1..][j - 1];
          Ok([d] + rest)
  }

  /** The first `max_results` hits (Python slice semantics) run through the
      scoring loop. */
  function ShapeResults(hits: seq<Hit>, maxResults: int): (r: Result<seq<Doc>>)
    ensures r.Ok? <==> forall i :: 0 <= i < |PrefixSlice(hits, maxResults)| ==> Loggable(hits[i].source)
    ensures r.Ok? ==> |r.value| == |PrefixSlice(hits, maxResults)|
    ensures r.Ok? && 0 <= maxResults ==> |r.value| <= maxResults
    ensures r.Ok? ==> forall i :: 0 <= i < |r.value| ==> r.value[i] == Scored(hits[i])
  {
    var kept := PrefixSlice(hits, maxResults);
    assert forall i :: 0 <= i < |kept| ==> kept[i] == hits[i];
    ScoreAndLog(kept)
  }

  /** Reading the direct API's reply: the first vector of its `embeddings`
      list. */
  function ReadApiReply(reply: Json): (r: Result<Json>)
    ensures (reply.Dict? && "embeddings" in reply.fields && reply.fields["embeddings"].List?
             && |reply.fields["embeddings"].items| > 0)
            ==> r == Ok(reply.fields["embeddings"].items[0])
    ensures (reply.Dict? && "embeddings" in reply.fields && reply.fields["embeddings"] == List([]))
            ==> r == Err(IndexError)
    ensures reply.Dict? && "embeddings" !in reply.fields ==> r == Err(KeyError(Str("embeddings")))
    ensures !reply.Dict? ==> r == Err(TypeError)
  {
    match Get(reply, "embeddings")
    case Err(e) => Err(e)
    case Ok(es) => At(es, 0)
  }

  /** `search_knn(query, login_email, max_results, index_name)`.

      1. the simulate route; a missing embedding makes `_get_embedding`
         return None, which is then subscripted: TypeError, and nothing
         further happens;
      2. the embedding API route, whose reply is read but never used;
      3. the assertion that the owner is not None;
      4. one filtered KNN search, whose hits are truncated and scored. */
  function SearchKnn(b: Backend, query: string, email: Option<string>, maxResults: int,
                     index: string): (r: Traced<seq<Doc>>)
    ensures |r.calls| >= 1 && r.calls[0] == Simulate(SearchPipeline, SimulateDocs(query))
    ensures r.result.Ok? ==>
              && email.Some?
              && |r.calls| == 3
              && r.calls[1] == EmbeddingApi([query])
              && r.calls[2].KnnSearch?
              && r.calls[2].knnRequest.filter == [TermFilter("login_email", email.value)]
              && r.calls[2].knnRequest.k == maxResults
              && r.calls[2].knnRequest.numCandidates == NumCandidates(maxResults)
              && (0 <= maxResults ==> |r.result.value| <= maxResults)
    ensures email.None? ==> r.result.Err?
  {
    var sim := GetEmbedding(b, query, SearchPipeline);
    match sim.result
    case Err(e) => Traced(sim.calls, Err(e))
    case Ok(None) => Traced(sim.calls, Err(TypeError))
    case Ok(Some(src)) =>
      match Get(src, "text_embedding")
      case Err(e) => Traced(sim.calls, Err(e))
      case Ok(vector) =>
        var apiCalls := sim.calls + [EmbeddingApi([query])];
        match b.embeddingApi([query])
        case Err(e) => Traced(apiCalls, Err(e))
        case Ok(apiReply) =>
          match ReadApiReply(apiReply)
          case Err(e) => Traced(apiCalls, Err(e))
          case Ok(_) =>
            if email.None? then Traced(apiCalls, Err(AssertionError))
            else
              var req := KnnFor(index, vector, maxResults, email.value);
              var calls := apiCalls + [KnnSearch(req)];
              match b.knnSearch(req)
              case Err(e) => Traced(calls, Err(e))
              case Ok(hits) => Traced(calls, ShapeResults(hits, maxResults))
  }

  /** The simulate route reports no embedding: `search_knn` fails with a
      TypeError right after the simulate call. There is no fallback to the
      embedding API and no KNN request is made. */
  lemma NoFallbackWithoutEmbedding(b: Backend, query: string, email: Option<string>,
                                   maxResults: int, index: string)
    requires b.simulate(SearchPipeline, SimulateDocs(query)).Ok?
    requires WellShapedSimulateReply(b.simulate(SearchPipeline, SimulateDocs(query)).value)
    requires !HasEmbedding(b.simulate(SearchPipeline, SimulateDocs(query)).value)
    ensures SearchKnn(b, query, email, maxResults, index)
         == Traced([Simulate(SearchPipeline, SimulateDocs(query))], Err(TypeError))
  {
  }

  /** Both embedding routes succeed: the simulate reply carries an
      embedding and the embedding API reply can be read. */
  predicate EmbeddingsSucceed(b: Backend, query: string)
  {
    && b.simulate(SearchPipeline, SimulateDocs(query)).Ok?
    && WellShapedSimulateReply(b.simulate(SearchPipeline, SimulateDocs(query)).value)
    && HasEmbedding(b.simulate(SearchPipeline, SimulateDocs(query)).value)
    && b.embeddingApi([query]).Ok?
    && ReadApiReply(b.embeddingApi([query]).value).Ok?
  }

  /** The conditions under which `search_knn` reaches the KNN request: both
      embedding routes succeed and the owner is given. */
  predicate ReachesKnn(b: Backend, query: string, email: Option<string>)
  {
    EmbeddingsSucceed(b, query) && email.Some?
  }

  /** The vector of the simulate route, `…["_source"]["text_embedding"]`. */
  function SimulatedVector(b: Backend, query: string): Json
    requires b.simulate(SearchPipeline, SimulateDocs(query)).Ok?
    requires WellShapedSimulateReply(b.simulate(SearchPipeline, SimulateDocs(query)).value)
    requires HasEmbedding(b.simulate(SearchPipeline, SimulateDocs(query)).value)
  {
    EmbeddedSource(b.simulate(SearchPipeline, SimulateDocs(query)).value).fields["text_embedding"]
  }

  /** When the KNN request is reached it is exactly: the simulated vector,
      `k = max_results`, the capped candidate pool, the single owner term
      filter and the question/answer projection; and the results are the
      first `max_results` hits, each its `_source` with the hit's score. */
  lemma SearchKnnRequestAndResults(b: Backend, query: string, email: Option<string>,
                                   maxResults: int, index: string)
    requires ReachesKnn(b, query, email)
    ensures var req := KnnFor(index, SimulatedVector(b, query), maxResults, email.value);
            var r := SearchKnn(b, query, email, maxResults, index);
            && r.calls == [Simulate(SearchPipeline, SimulateDocs(query)), EmbeddingApi([query]), KnnSearch(req)]
            && (b.knnSearch(req).Err? ==> r.result == Err(b.knnSearch(req).error))
            && (b.knnSearch(req).Ok? ==> r.result == ShapeResults(b.knnSearch(req).value, maxResults))
            && (b.knnSearch(req).Ok? && r.result.Ok? ==>
                  && |r.result.value| == |PrefixSlice(b.knnSearch(req).value, maxResults)|
                  && forall i :: 0 <= i < |r.result.value| ==>
                       r.result.value[i] == Scored(b.knnSearch(req).value[i]))
  {
  }

  /** The direct-API embedding never influences the search: two backends
      that differ only in the embedding service give the same outcome, as
      long as both services answer with a readable embedding. */
  lemma EmbeddingApiIrrelevant(b1: Backend, b2: Backend, query: string, email: Option<string>,
                               maxResults: int, index: string)
    requires b1.simulate == b2.simulate && b1.knnSearch == b2.knnSearch
    requires b1.embeddingApi([query]).Ok? && ReadApiReply(b1.embeddingApi([query]).value).Ok?
    requires b2.embeddingApi([query]).Ok? && ReadApiReply(b2.embeddingApi([query]).value).Ok?
    ensures SearchKnn(b1, query, email, maxResults, index) == SearchKnn(b2, query, email, maxResults, index)
  {
  }

  /** The direct-API embedding is never used, yet a failure on that route
      (the call raising, or its reply lacking a first embedding) fails the
      whole search after the two embedding calls, with no KNN request, even
      though the simulate route succeeded. */
  lemma ApiFailureFailsSearch(b: Backend, query: string, email: Option<string>,
                              maxResults: int, index: string)
    requires b.simulate(SearchPipeline, SimulateDocs(query)).Ok?
    requires WellShapedSimulateReply(b.simulate(SearchPipeline, SimulateDocs(query)).value)
    requires HasEmbedding(b.simulate(SearchPipeline, SimulateDocs(query)).value)
    requires b.embeddingApi([query]).Err? || ReadApiReply(b.embeddingApi([query]).value).Err?
    ensures var r := SearchKnn(b, query, email, maxResults, index);
            && r.result.Err?
            && r.calls == [Simulate(SearchPipeline, SimulateDocs(query)), EmbeddingApi([query])]
            && (b.embeddingApi([query]).Err? ==> r.result.error == b.embeddingApi([query]).error)
  {
  }

  /** A missing owner is rejected by the assertion, after both embedding
      routes have been called and before any KNN request. */
  lemma MissingOwnerAsserts(b: Backend, query: string, maxResults: int, index: string)
    requires EmbeddingsSucceed(b, query)
    ensures SearchKnn(b, query, None, maxResults, index)
         == Traced([Simulate(SearchPipeline, SimulateDocs(query)), EmbeddingApi([query])], Err(AssertionError))
  {
  }
}

=== FILE: fastapi_app.dfy ===
/** The HTTP search endpoint `GET /search/{email}` (fastapi_app.py): a
    four-way decision. A wrong API key is rejected; otherwise a list request
    (`show_list=yes`) lists the owner's entries; otherwise a missing query
    is an error; otherwise the owner's entries are searched.

    FastAPI routing and serialisation are not modelled: a request is the
    handler's arguments, and a response is the JSON body it returns, or the
    exception that escapes it. */
module SearchApi {
  import opened PyJson
  import ApiKey
  import Es

  /** The handler's arguments; `None` is an omitted query parameter. */
  datatype Request = Request(
    email: string,
    apiKey: string,
    query: Option<string>,
    showList: Option<string>,
    maxResults: Option<int>)

  /** Everything the handler depends on besides its arguments: the imported
      key module, SHA-256, the store and the index name. */
  datatype App = App(keys: ApiKey.KeyModule, sha: ApiKey.Sha256, backend: Es.Backend, index: string)

  /** The adapter operations the handler invokes, with their arguments. */
  datatype Invocation =
    | ListQas(email: string)
    | SearchKnn(query: string, email: string, maxResults: int)

  /** What one request did: the adapter operations invoked, the external
      calls they issued, and the response body (or the escaping exception). */
  datatype Reply = Reply(invocations: seq<Invocation>, calls: seq<Es.Call>, response: Result<Json>)

  /** The four outcomes of the dispatch. */
  datatype Branch = Rejected | Listing | MissingQuery | Searching

  const DefaultMaxResults: int := 10

  const InvalidKeyMessage: string := "Invalid API key"
  const NoQueryMessage: string := "No query provided"

  function ErrorBody(message: string): Json
  {
    Dict(map["error" := Str(message)])
  }

  /** The key the request must present: `get_api_key(email)` with the
      password read at import. */
  function ExpectedKey(app: App, email: string): (k: string)
    ensures k == ApiKey.KeyFor(app.sha, email, app.keys.apiKeyPassword)
  {
    ApiKey.GetApiKey(app.keys, app.sha, email, None)
  }

  predicate KeyValid(app: App, req: Request)
  {
    req.apiKey == ExpectedKey(app, req.email)
  }

  predicate WantsList(req: Request)
  {
    req.showList == Some("yes")
  }

  /** The precedence of the dispatch: key, then list, then query. */
  function Route(keyValid: bool, req: Request): (b: Branch)
    ensures b == Rejected <==> !keyValid
    ensures b == Listing <==> keyValid && WantsList(req)
    ensures b == MissingQuery <==> keyValid && !WantsList(req) && req.query.None?
    ensures b == Searching <==> keyValid && !WantsList(req) && req.query.Some?
  {
    if !keyValid then Rejected
    else if req.showList == Some("yes") then Listing
    else if req.query.None? then MissingQuery
    else Searching
  }

  function Sources(hits: seq<Es.Hit>): (r: seq<Doc>)
    ensures |r| == |hits|
    ensures forall i :: 0 <= i < |hits| ==> r[i] == hits[i].source
  {
    seq(|hits|, i requires 0 <= i < |hits| => hits[i].source)
  }

  function ListBody(hits: seq<Es.Hit>): Json
  {
    Dict(map["results" := DocsJson(Sources(hits))])
  }

  function SearchBody(results: seq<Doc>, query: string, email: string, maxResults: int): Json
  {
    Dict(map[
      "results" := DocsJson(results),
      "query" := Str(query),
      "email" := Str(email),
      "max_results" := Int(maxResults)
    ])
  }

  /** The `search` handler. */
  function Search(app: App, req: Request): (r: Reply)
    ensures r.invocations == [] <==> !KeyValid(app, req) || (!WantsList(req) && req.query.None?)
    ensures !KeyValid(app, req) ==> r == Reply([], [], Ok(ErrorBody("Invalid API key")))
    ensures KeyValid(app, req) && WantsList(req) ==>
              && r.invocations == [ListQas(req.email)]
              && r.calls == Es.GetQas(app.backend, req.email, app.index).calls
    ensures KeyValid(app, req) && !WantsList(req) && req.query.None? ==>
              r == Reply([], [], Ok(ErrorBody("No query provided")))
    ensures KeyValid(app, req) && !WantsList(req) && req.query.Some? ==>
              r.invocations == [SearchKnn(req.query.value, req.email, req.maxResults.GetOr(10))]
  {
    match Route(KeyValid(app, req), req)
    case Rejected => Reply([], [], Ok(ErrorBody(InvalidKeyMessage)))
    case Listing =>
      var t := Es.GetQas(app.backend, req.email, app.index);
      var response := match t.result
        case Ok(hits) => Ok(ListBody(hits))
        case Err(e) => Err(e);
      Reply([ListQas(req.email)], t.calls, response)
    case MissingQuery => Reply([], [], Ok(ErrorBody(NoQueryMessage)))
    case Searching =>
      SearchReply(app, req.query.value, req.email, req.maxResults.GetOr(DefaultMaxResults))
  }

  /** The search branch: one `search_knn` call, its results echoed next to
      the query, the email and the result count. */
  function SearchReply(app: App, q: string, email: string, m: int): Reply
  {
    var t := Es.SearchKnn(app.backend, q, Some(email), m, app.index);
    var response := match t.result
      case Ok(results) => Ok(SearchBody(results, q, email, m))
      case Err(e) => Err(e);
    Reply([SearchKnn(q, email, m)], t.calls, response)
  }

  /** A search calls `search_knn` once with the query, the email and the
      result count, and echoes all three next to the results; an exception
      from the search escapes the handler. */
  lemma SearchEchoesArguments(app: App, req: Request)
    requires KeyValid(app, req) && !WantsList(req) && req.query.Some?
    ensures var m := req.maxResults.GetOr(10);
            var t := Es.SearchKnn(app.backend, req.query.value, Some(req.email), m, app.index);
            var r := Search(app, req);
            && r.invocations == [SearchKnn(req.query.value, req.email, m)]
            && r.calls == t.calls
            && r.response.Ok? == t.result.Ok?
            && (r.response.Err? ==> r.response.error == t.result.error)
            && (r.response.Ok? ==>
                  && r.response.value.Dict?
                  && r.response.value.fields.Keys == {"results", "query", "email", "max_results"}
                  && r.response.value.fields["results"] == DocsJson(t.result.value)
                  && r.response.value.fields["query"] == Str(req.query.value)
                  && r.response.value.fields["email"] == Str(req.email)
                  && r.response.value.fields["max_results"] == Int(m))
  {
    assert Search(app, req) == SearchReply(app, req.query.value, req.email, req.maxResults.GetOr(10));
    SearchReplyEchoes(app, req.query.value, req.email, req.maxResults.GetOr(10));
  }

  lemma SearchReplyEchoes(app: App, q: string, email: string, m: int)
    ensures var t := Es.SearchKnn(app.backend, q, Some(email), m, app.index);
            var r := SearchReply(app, q, email, m);
            && r.invocations == [SearchKnn(q, email, m)]
            && r.calls == t.calls
            && r.response.Ok? == t.result.Ok?
            && (r.response.Err? ==> r.response.error == t.result.error)
            && (r.response.Ok? ==>
                  && r.response.value.Dict?
                  && r.response.value.fields.Keys == {"results", "query", "email", "max_results"}
                  && r.response.value.fields["results"] == DocsJson(t.result.value)
                  && r.response.value.fields["query"] == Str(q)
                  && r.response.value.fields["email"] == Str(email)
                  && r.response.value.fields["max_results"] == Int(m))
  {
    var t := Es.SearchKnn(app.backend, q, Some(email), m, app.index);
    if t.result.Ok? {
      var body := SearchBody(t.result.value, q, email, m);
      assert SearchReply(app, q, email, m) == Reply([SearchKnn(q, email, m)], t.calls, Ok(body));
      assert body.fields.Keys == {"results", "query", "email", "max_results"};
    } else {
      assert SearchReply(app, q, email, m) == Reply([SearchKnn(q, email, m)], t.calls, Err(t.result.error));
    }
  }

  /** A request carrying the key derived for its own email passes the gate. */
  lemma DerivedKeyAccepted(app: App, req: Request)
    requires req.apiKey == ApiKey.KeyFor(app.sha, req.email, app.keys.apiKeyPassword)
    ensures KeyValid(app, req)
  {
  }

  /** With a wrong key the reply does not depend on the query, the list flag
      or the result count. */
  lemma InvalidKeyIgnoresRest(app: App, r1: Request, r2: Request)
    requires r1.email == r2.email && r1.apiKey == r2.apiKey
    requires !KeyValid(app, r1)
    ensures Search(app, r1) == Search(app, r2)
  {
  }

  /** A list request is served even when a query is given too. */
  lemma ListingWinsOverQuery(app: App, req: Request)
    requires WantsList(req)
    ensures Search(app, req) == Search(app, req.(query := None, maxResults := None))
  {
  }

  /** Only the exact string "yes" asks for the list: any other value of
      `show_list` behaves as if it were omitted. */
  lemma OnlyExactYesLists(app: App, req: Request)
    requires req.showList.Some? && req.showList.value != "yes"
    ensures Search(app, req) == Search(app, req.(showList := None))
  {
  }

  /** The list response is `{"results": …}` holding each hit's `_source`, in
      store order, with nothing added. */
  lemma ListResponseIsSources(app: App, req: Request)
    requires KeyValid(app, req) && WantsList(req)
    requires Es.GetQas(app.backend, req.email, app.index).result.Ok?
    ensures var hits := Es.GetQas(app.backend, req.email, app.index).result.value;
            var r := Search(app, req).response;
            && r.Ok? && r.value.Dict? && r.value.fields.Keys == {"results"}
            && r.value.fields["results"].List?
            && |r.value.fields["results"].items| == |hits|
            && forall i :: 0 <= i < |hits| ==> r.value.fields["results"].items[i] == Dict(hits[i].source)
  {
  }

  /** An empty query string is a query: it is searched, not rejected. */
  lemma EmptyQueryIsSearched(app: App, req: Request)
    requires KeyValid(app, req) && !WantsList(req) && req.query == Some("")
    ensures Search(app, req).invocations == [SearchKnn("", req.email, req.maxResults.GetOr(10))]
  {
  }

  /** An omitted `max_results` searches for, and echoes, 10 results. */
  lemma DefaultResultCount(app: App, req: Request)
    requires KeyValid(app, req) && !WantsList(req) && req.query.Some? && req.maxResults.None?
    ensures Search(app, req).invocations == [SearchKnn(req.query.value, req.email, 10)]
    ensures Search(app, req).response.Ok? ==>
              Search(app, req).response.value.fields["max_results"] == Int(10)
  {
  }
}

=== FILE: json.dfy ===
/** Python values as they travel through the FAQ service: JSON-shaped data
    (the dicts and lists handed to and received from Elasticsearch, the
    embedding API and FastAPI), the Python exceptions the code can raise,
    and the handful of Python operators the code applies to such values
    (subscripting, `in`, slicing). */
module PyJson {

  /** A JSON value as Python holds it. Floating-point numbers (vector
      components, similarity scores) are opaque: a `Float` carries only a
      token that identifies it, and nothing here does arithmetic on it. */
  datatype Json =
    | Null
    | Bool(b: bool)
    | Int(i: int)
    | Float(token: int)
    | Str(s: string)
    | List(items: seq<Json>)
    | Dict(fields: map<string, Json>)

  /** A Python dict with string keys, the shape of every document. */
  type Doc = map<string, Json>

  /** The exceptions the modelled code can raise or let through. */
  datatype PyError =
    | KeyError(key: Json)
    | IndexError
    | TypeError
    | AssertionError
    | AttributeError(name: string)
    | UpstreamError(reason: string)   // an exception raised by a client library

  datatype Option<+T> = None | Some(value: T) {
    function GetOr(default: T): (r: T)
      ensures Some? ==> r == value
      ensures None? ==> r == default
    {
      match this
      case Some(v) => v
      case None => default
    }
  }

  datatype Result<+T> = Ok(value: T) | Err(error: PyError)

  /** `v[key]` with a string key. Only a dict accepts it; a missing key is a
      KeyError, any other value a TypeError. */
  function Get(v: Json, key: string): (r: Result<Json>)
    ensures r.Ok? <==> v.Dict? && key in v.fields
    ensures r.Ok? ==> r.value == v.fields[key]
    ensures v.Dict? && key !in v.fields ==> r == Err(KeyError(Str(key)))
  {
    match v
    case Dict(fields) => if key in fields then Ok(fields[key]) else Err(KeyError(Str(key)))
    case _ => Err(TypeError)
  }

  /** `v[i]` with an integer index, negative indices counting from the end.
      A string yields a one-character string; a dict looks `i` up as a key
      and, having only string keys here, always raises KeyError. */
  function At(v: Json, i: int): (r: Result<Json>)
    ensures v.List? && 0 <= i < |v.items| ==> r == Ok(v.items[i])
    ensures v.List? && |v.items| == 0 ==> r == Err(IndexError)
    ensures !(v.List? || v.Str? || v.Dict?) ==> r == Err(TypeError)
  {
    match v
    case List(items) =>
      if 0 <= i < |items| then Ok(items[i])
      else if -|items| <= i < 0 then Ok(items[|items| + i])
      else Err(IndexError)
    case Str(s) =>
      if 0 <= i < |s| then Ok(Str([s[i]]))
      else if -|s| <= i < 0 then Ok(Str([s[|s| + i]]))
      else Err(IndexError)
    case Dict(_) => Err(KeyError(Int(i)))
    case _ => Err(TypeError)
  }

  predicate OccursAt(needle: string, hay: string, j: int)
    requires 0 <= j <= |hay| - |needle|
  {
    hay[j..j + |needle|] == needle
  }

  predicate IsSubstring(needle: string, hay: string)
  {
    exists j | 0 <= j <= |hay| - |needle| :: OccursAt(needle, hay, j)
  }

  /** Python's `key in v` for a string `key`: key membership for a dict,
      substring test for a string, element test for a list, and a TypeError
      for anything that is not a container. */
  function In(key: string, v: Json): (r: Result<bool>)
    ensures v.Dict? ==> r == Ok(key in v.fields)
    ensures r.Err? <==> !(v.Dict? || v.Str? || v.List?)
  {
    match v
    case Dict(fields) => Ok(key in fields)
    case Str(s) => Ok(IsSubstring(key, s))
    case List(items) => Ok(Str(key) in items)
    case _ => Err(TypeError)
  }

  /** Python's `s[0:stop]`: a negative `stop` counts from the end, and a
      `stop` past the end is clamped. */
  function PrefixSlice<T>(s: seq<T>, stop: int): (r: seq<T>)
    ensures 0 <= stop ==> |r| == if stop < |s| then stop else |s|
    ensures stop < 0 ==> |r| == if -stop < |s| then |s| + stop else 0
    ensures r <= s
  {
    if stop < 0 then
      (if -stop < |s| then s[..|s| + stop] else [])
    else
      (if stop < |s| then s[..stop] else s)
  }

  /** A list of documents as the JSON array Python would serialise. */
  function DocsJson(docs: seq<Doc>): (r: Json)
    ensures r.List? && |r.items| == |docs|
    ensures forall i :: 0 <= i < |docs| ==> r.items[i] == Dict(docs[i])
  {
    List(seq(|docs|, i requires 0 <= i < |docs| => Dict(docs[i])))
  }
}

=== FILE: streamlit_app.dfy ===
/** The session-side bookkeeping of the FAQ management UI
    (streamlit_app.py): the per-session list of the owner's entries is
    loaded from the store once, grows by the entry each add returns, and
    loses the entries a delete names.

    Widgets, layout, the OAuth login and the search panel are not modelled.
    A `Session` is the part of the session state the code reads and writes:
    the `qalist` key, absent until first initialised. */
module FaqUi {
  import opened PyJson
  import Es

  datatype Session = Session(qalist: Option<seq<Doc>>)

  /** The configuration the UI passes to the adapter. */
  datatype Ui = Ui(backend: Es.Backend, index: string, pipeline: string)

  /** One UI action: the external calls it issued, the session after it,
      and the exception that escaped it, if any. */
  datatype Step = Step(calls: seq<Es.Call>, session: Session, error: Option<PyError>)

  /** Every entry carries an `_id`. */
  predicate AllHaveIds(list: seq<Doc>)
  {
    forall i :: 0 <= i < |list| ==> "_id" in list[i]
  }

  /** The session invariant the UI relies on when deleting: once the list
      exists, every entry in it has an `_id`. */
  predicate SessionValid(s: Session)
  {
    s.qalist.Some? ==> AllHaveIds(s.qalist.value)
  }

  function WithId(h: Es.Hit): Doc
  {
    h.source["_id" := Str(h.id)]
  }

  // ---------------------------------------------------------------------
  // load_qas
  // ---------------------------------------------------------------------

  /** The two comprehensions and the loop of `load_qas`: each hit's
      `_source` with `_id` set to the hit's id. */
  function EntriesOf(hits: seq<Es.Hit>): (r: seq<Doc>)
    ensures |r| == |hits|
    ensures forall i :: 0 <= i < |hits| ==>
              && r[i].Keys == hits[i].source.Keys + {"_id"}
              && r[i]["_id"] == Str(hits[i].id)
              && forall f :: f in hits[i].source && f != "_id" ==> r[i][f] == hits[i].source[f]
    ensures AllHaveIds(r)
  {
    if |hits| == 0 then [] else [WithId(hits[0])] + EntriesOf(hits[1..])
  }

  /** `load_qas(login_email)`: lists the owner's entries and tags each with
      its id. */
  function LoadQas(ui: Ui, email: string): (r: Es.Traced<seq<Doc>>)
    ensures r.calls == Es.GetQas(ui.backend, email, ui.index).calls
    ensures r.result.Ok? <==> Es.GetQas(ui.backend, email, ui.index).result.Ok?
    ensures r.result.Err? ==> r.result.error == Es.GetQas(ui.backend, email, ui.index).result.error
    ensures r.result.Ok? ==>
              var hits := Es.GetQas(ui.backend, email, ui.index).result.value;
              && |r.result.value| == |hits|
              && forall i :: 0 <= i < |hits| ==> r.result.value[i] == WithId(hits[i])
  {
    var t := Es.GetQas(ui.backend, email, ui.index);
    match t.result
    case Err(e) => Es.Traced(t.calls, Err(e))
    case Ok(hits) => Es.Traced(t.calls, Ok(EntriesOf(hits)))
  }

  // ---------------------------------------------------------------------
  // Session initialisation (the top of main)
  // ---------------------------------------------------------------------

  /** Session initialisation at the top of the page script: the list is
      loaded from the store only when the session has none yet. */
  function InitQaList(ui: Ui, s: Session, email: string): (r: Step)
    ensures s.qalist.Some? ==> r == Step([], s, None)
    ensures s.qalist.None? ==> r.calls == Es.GetQas(ui.backend, email, ui.index).calls
    ensures s.qalist.None? && r.error.None? ==>
              && LoadQas(ui, email).result.Ok?
              && r.session.qalist == Some(LoadQas(ui, email).result.value)
    ensures s.qalist.None? && r.error.Some? ==> r.session == s
    ensures s.qalist.None? ==> (r.error.None? <==> LoadQas(ui, email).result.Ok?)
    ensures s.qalist.None? && r.error.Some? ==> r.error.value == LoadQas(ui, email).result.error
    ensures SessionValid(s) ==> SessionValid(r.session)
  {
    if s.qalist.Some? then Step([], s, None)
    else
      var t := LoadQas(ui, email);
      match t.result
      case Err(e) => Step(t.calls, s, Some(e))
      case Ok(list) => Step(t.calls, Session(Some(list)), None)
  }

  /** Re-running the script does not reload the list: after a successful
      initialisation a second one issues no call and changes nothing. */
  lemma InitLoadsOnce(ui: Ui, s: Session, email: string, email2: string)
    requires InitQaList(ui, s, email).error.None?
    ensures var s1 := InitQaList(ui, s, email).session;
            && s1.qalist.Some?
            && InitQaList(ui, s1, email2) == Step([], s1, None)
  {
  }

  // ---------------------------------------------------------------------
  // del_qa
  // ---------------------------------------------------------------------

  /** The list filter of `del_qa`: keeps, in order, the entries whose `_id`
      differs from the deleted id; an entry without `_id` raises KeyError. */
  function KeepOthers(list: seq<Doc>, id: string): (r: Result<seq<Doc>>)
    ensures r.Ok? <==> AllHaveIds(list)
    ensures r.Err? ==> r.error == KeyError(Str("_id"))
    ensures r.Ok? ==> |r.value| <= |list| && AllHaveIds(r.value)
    ensures r.Ok? ==> forall x :: x in r.value ==> x in list && x["_id"] != Str(id)
    ensures r.Ok? ==> forall x :: x in list && x["_id"] != Str(id) ==> x in r.value
  {
    if |list| == 0 then Ok([])
    else if "_id" !in list[0] then Err(KeyError(Str("_id")))
    else
      match KeepOthers(list[1..], id)
      case Err(e) => Err(e)
      case Ok(rest) =>
        assert forall x :: x in list ==> x == list[0] || x in list[1..];
        Ok(if list[0]["_id"] != Str(id) then [list[0]] + rest else rest)
  }

  /** The filter keeps relative order: filtering a concatenation is
      concatenating the filtered parts. */
  lemma {:induction false} KeepOthersAppend(a: seq<Doc>, b: seq<Doc>, id: string)
    requires AllHaveIds(a) && AllHaveIds(b)
    ensures AllHaveIds(a + b)
    ensures KeepOthers(a + b, id).value == KeepOthers(a, id).value + KeepOthers(b, id).value
  {
    assert AllHaveIds(a + b) by {
      forall i | 0 <= i < |a + b|
        ensures "_id" in (a + b)[i]
      {
        if i < |a| { assert (a + b)[i] == a[i]; } else { assert (a + b)[i] == b[i - |a|]; }
      }
    }
    if |a| == 0 {
      assert a + b == b;
    } else {
      assert (a + b)[0] == a[0];
      assert (a + b)[1..] == a[1..] + b;
      KeepOthersAppend(a[1..], b, id);
    }
  }

  /** On a single entry the filter keeps it exactly when its `_id` differs. */
  lemma KeepOthersSingle(x: Doc, id: string)
    requires "_id" in x
    ensures KeepOthers([x], id) == Ok(if x["_id"] != Str(id) then [x] else [])
  {
    var l := [x];
    assert l[0] == x && l[1..] == [];
    assert KeepOthers(l[1..], id) == Ok([]);
    if x["_id"] != Str(id) {
      assert KeepOthers(l, id) == Ok([x] + []);
      assert [x] + [] == [x];
    } else {
      assert KeepOthers(l, id) == Ok([]);
    }
  }

  /** `del_qa(id)`: deletes in the store, then drops every entry with that
      `_id` from the session list. An exception from the store leaves the
      list as it was. */
  function DelQa(ui: Ui, s: Session, id: string): (r: Step)
    ensures r.calls == [Es.DeleteDoc(Es.DeleteRequest(ui.index, id))]
    ensures r.error.Some? ==> r.session == s
    ensures r.error.None? ==>
              && ui.backend.delete(Es.DeleteRequest(ui.index, id)).Ok?
              && s.qalist.Some? && r.session.qalist.Some?
              && KeepOthers(s.qalist.value, id).Ok?
              && r.session.qalist == Some(KeepOthers(s.qalist.value, id).value)
              && (forall x :: x in r.session.qalist.value ==> x["_id"] != Str(id))
              && (forall x :: x in s.qalist.value && x["_id"] != Str(id) ==> x in r.session.qalist.value)
    ensures (SessionValid(s) && s.qalist.Some? && ui.backend.delete(Es.DeleteRequest(ui.index, id)).Ok?)
              ==> r.error.None?
    ensures SessionValid(s) ==> SessionValid(r.session)
  {
    var t := Es.DelQa(ui.backend, id, ui.index);
    match t.result
    case Err(e) => Step(t.calls, s, Some(e))
    case Ok(_) =>
      match s.qalist
      case None => Step(t.calls, s, Some(AttributeError("qalist")))
      case Some(list) =>
        match KeepOthers(list, id)
        case Err(e) => Step(t.calls, s, Some(e))
        case Ok(kept) => Step(t.calls, Session(Some(kept)), None)
  }

  // ---------------------------------------------------------------------
  // The add path of main
  // ---------------------------------------------------------------------

  /** The add button: stores the new entry through the adapter, then
      appends the document the adapter returned to the session list. */
  function AddQa(ui: Ui, s: Session, email: string, question: string, answer: string): (r: Step)
    ensures r.calls == Es.AddQa(ui.backend, email, question, answer, ui.pipeline, ui.index).calls
    ensures r.error.Some? ==> r.session == s
    ensures r.error.None? ==>
              var added := Es.AddQa(ui.backend, email, question, answer, ui.pipeline, ui.index).result;
              && added.Ok? && s.qalist.Some?
              && r.session.qalist == Some(s.qalist.value + [added.value])
    ensures r.error.None? ==>
              && |r.session.qalist.value| == |s.qalist.value| + 1
              && r.session.qalist.value[..|s.qalist.value|] == s.qalist.value
    ensures (s.qalist.Some? && Es.AddQa(ui.backend, email, question, answer, ui.pipeline, ui.index).result.Ok?)
              ==> r.error.None?
    ensures Es.AddQa(ui.backend, email, question, answer, ui.pipeline, ui.index).result.Err? ==>
              r.error == Some(Es.AddQa(ui.backend, email, question, answer, ui.pipeline, ui.index).result.error)
    ensures s.qalist.None? ==> r.error.Some?
    ensures SessionValid(s) ==> SessionValid(r.session)
  {
    var t := Es.AddQa(ui.backend, email, question, answer, ui.pipeline, ui.index);
    match t.result
    case Err(e) => Step(t.calls, s, Some(e))
    case Ok(doc) =>
      match s.qalist
      case None => Step(t.calls, s, Some(AttributeError("qalist")))
      case Some(list) =>
        assert (list + [doc])[..|list|] == list;
        Step(t.calls, Session(Some(list + [doc])), None)
  }

  /** Deleting what was just added removes it again, and only entries with
      the same id, keeping the rest in order. */
  lemma DeleteAfterAdd(ui: Ui, s: Session, email: string, question: string, answer: string)
    requires SessionValid(s)
    requires AddQa(ui, s, email, question, answer).error.None?
    ensures var s1 := AddQa(ui, s, email, question, answer).session;
            var id := ui.backend.index(Es.IndexRequest(ui.index, ui.pipeline, Es.QaDocument(email, question, answer))).value;
            ui.backend.delete(Es.DeleteRequest(ui.index, id)).Ok? ==>
              && DelQa(ui, s1, id).error.None?
              && DelQa(ui, s1, id).session.qalist == Some(KeepOthers(s.qalist.value, id).value)
  {
    var s1 := AddQa(ui, s, email, question, answer).session;
    var id := ui.backend.index(Es.IndexRequest(ui.index, ui.pipeline, Es.QaDocument(email, question, answer))).value;
    var added := Es.AddQa(ui.backend, email, question, answer, ui.pipeline, ui.index).result.value;
    assert added["_id"] == Str(id);
    assert AllHaveIds([added]);
    assert s1.qalist == Some(s.qalist.value + [added]);
    KeepOthersAppend(s.qalist.value, [added], id);
    KeepOthersSingle(added, id);
    assert KeepOthers(s1.qalist.value, id).value == KeepOthers(s.qalist.value, id).value;
    assert SessionValid(s1);
  }
}
